=== FILE: README.md ===
# Last third of the night — Dafny model

This project models the calculator at the heart of the "last third of the
night" page: given the day's Maghrib and Fajr times as text (`"18:30"`,
`"05:12 (EET)"`) and the current instant, it finds the night that runs from
Maghrib to the following Fajr, the moment two thirds of the way through it
when the last third begins, and which of three states the page is in —
before the last third (with a countdown to its start), during it (with the
time left until Fajr) or after Fajr — and it shows each countdown as whole
hours and minutes.

The model is pure and integer-valued:

- `TimeText` (`time_text.dfy`) — the text side of `convertPrayerTimeToDate`:
  the removal of a trailing ` (…)` annotation with the leftmost-match,
  end-anchored semantics of the regular expression, the first two pieces of
  `split(":")`, and `parseInt(…, 10)` (leading white space, an optional sign,
  the longest run of digits, NaN when there is none).
- `Moments` (`moments.dfy`) — a Date is an integer number of local
  milliseconds or `InvalidDate` (NaN). Anchoring a parsed time to the clock
  reading follows `setHours`, `setMinutes`, `setSeconds(0)`: local midnight of
  the clock's day plus the hours and minutes, with the clock's millisecond
  field kept (`setSeconds(0)` does not clear it). Out-of-range fields carry
  into neighbouring hours and days, which is linear Date arithmetic.
- `Night` (`night.dfy`) — the Fajr rollover, the night window, the start of
  the last third (`new Date(maghrib + nightDuration * 2 / 3)`, whose
  fractional value `new Date` truncates toward zero), the three-way
  classification with JavaScript's NaN comparisons, and the whole
  `calculateLastThirdOfNight` with the clock read once as `now`.
- `Durations` (`durations.dfy`) — `formatTimeDifference` as the pair
  (hours, minutes) with `Math.floor` and JavaScript's sign-of-dividend `%`.

Some behaviours of the code worth knowing:

- Hours and minutes are not range-checked; out-of-range values carry into
  the neighbouring hours and days.
- A field with no digits is not an error: it gives an invalid Date.
- An unreadable Fajr sends the page to the last branch ("Fajr has passed").
- An unreadable Maghrib gives the last-third branch before today's Fajr
  (counting down to Fajr) and the last branch from Fajr on.
- The start of the last third is truncated toward zero to a whole millisecond.
- For Maghrib 18:30 and Fajr 05:00 the last third starts at 01:30, seven
  hours after Maghrib.

## Model

| member | source | states |
|---|---|---|
| `TimeText.FirstAnnotation` | script.js:273 | the result is the leftmost index at or after the start where ` \(.+\)$` matches, and no index before it matches; none means no index matches |
| `TimeText.StripAnnotation` | script.js:273 | the result is a prefix of the text; it is the whole text exactly when the pattern matches nowhere, otherwise the pattern matches right where the prefix ends and nowhere before |
| `TimeText.StripWithoutParenthesis` | script.js:273 | text with no `(` comes through the strip unchanged |
| `TimeText.StripRemovesTag` | script.js:273 | appending ` (tag)` (non-empty tag, no line terminator) to text without `(` is undone by the strip |
| `TimeText.ParseIgnoresAnnotation` | script.js:271-280 | for text without `(`, appending a trailing annotation never changes the parsed time: `"05:12 (EET)"` and `"05:12"` parse alike |
| `TimeText.UpToColon` | script.js:276 | the result is a colon-free prefix followed in the text by a colon or by the end |
| `TimeText.SplitFields` | script.js:276 | hours text is the colon-free prefix; minutes text is absent exactly when there is no colon, and otherwise is the colon-free piece after the first colon, ended by a colon or the end |
| `TimeText.TrimStart` | script.js:279-280 | `parseInt` skips exactly the leading white-space run: what it drops is white space and what remains does not start with white space |
| `TimeText.LeadingDigits` | script.js:279-280 | the longest digit prefix: all digits, followed by a non-digit or the end |
| `TimeText.ParseInt` | script.js:279-280 | text without a digit is NaN, and a negative value needs a `-` in the text; exactly which trimmed text gives a number is stated by `ParseSignedExact`, and the values by `ParseIntOfDigits`, `ParseIntSigned` and `ParseIntTwoDigits` |
| `TimeText.ParseSigned` | script.js:279-280 | after white space: a value needs a digit among the first two characters, and a negative value needs a leading `-`; the exact condition is `ParseSignedExact` |
| `TimeText.ParseSignedExact` | script.js:279-280 | after white space there is a number exactly when the text starts with a digit, or with a sign followed at once by a digit; `"a5"`, `"- 5"` and `"+x1"` are NaN |
| `TimeText.ParseDigits` | script.js:279-280 | a value exists exactly when the text starts with a digit |
| `TimeText.ParseDigitsOf` | script.js:279-280 | a digit run followed by a non-digit or the end reads as the run's value |
| `TimeText.SkipWhiteSpace` | script.js:279-280 | any run of leading white space is skipped before the sign and digits are read |
| `TimeText.SignApplies` | script.js:279-280 | a `-` negates the value of the digits after it and a `+` keeps it |
| `TimeText.ParseIntSigned` | script.js:279-280 | white space, a sign, digits and a non-digit tail read as the digits' value, negated for `-` |
| `TimeText.ParseIntOfDigits` | script.js:279-280 | digits followed by a non-digit read as the value of the digits; trailing text is ignored |
| `TimeText.ParseIntTwoDigits` | script.js:279-280 | a zero-padded two-digit number reads back as itself |
| `TimeText.ParseTime` | script.js:273-280 | text without a colon, or without any digit, is NaN; the field-by-field result is stated by `ParseTimeFields` and the round trips below |
| `TimeText.ParseTimeFields` | script.js:276-280 | for text without `(`, hours come from the text before the first colon, minutes from the text between it and the next colon or the end; the time is NaN unless both fields hold digits |
| `TimeText.ParseFormatRoundTrip` | script.js:271-280 | every in-range time written as `HH:MM` parses back to itself |
| `TimeText.FormatParseRoundTrip` | script.js:271-280 | well-formed in-range `HH:MM` text parses, and writing the result as `HH:MM` gives the original text |
| `TimeText.ParseAnnotatedClock` | script.js:273-280 | `HH:MM (TZ)` text parses to the time written before the annotation |
| `Moments.Earlier` | script.js:208-235 | the `<` of two Dates is false when either is invalid, and true only for distinct Dates |
| `Moments.EarlierOrder` | script.js:208-235 | `<` is irreflexive, asymmetric and transitive, and any two valid Dates are equal or ordered one way |
| `Moments.Anchor` | script.js:278-281 | an in-range time anchors to the clock reading's own day |
| `Moments.PrayerTimeToMoment` | script.js:271-284 | the Date is valid exactly when both fields parse, and an in-range time stays on the clock's day |
| `Moments.AnchorFields` | script.js:275-281 | for an in-range time, the anchored Date's hour and minute fields are the parsed ones, its seconds field is zero, and its day and millisecond fields are the clock's |
| `Moments.AnchorDistance` | script.js:204-205 | two in-range times anchored to the same reading differ by their wall-clock difference, less than a day either way |
| `Durations.JsRem` | script.js:299 | the remainder has the sign of the dividend, is smaller than the divisor in size, and differs from the dividend by a multiple of the divisor |
| `Durations.FormatTimeDifference` | script.js:296-301 | for a non-negative duration: hours at least zero, minutes 0..59, and hours and minutes together within one minute below the duration (seconds truncated); a negative duration gives negative hours |
| `Durations.FormatTimeDifferenceUnique` | script.js:296-301 | any hours ≥ 0 and minutes 0..59 whose total lies within a minute below the duration are the ones produced |
| `Durations.FormatTimeDifferenceExamples` | script.js:296-301 | 5,400,000 ms is (1, 30); 59,000 ms is (0, 0); 7,199,999 ms is (1, 59) |
| `Night.TruncThird` | script.js:216-218 | the result is n / 3 truncated toward zero: within one of the exact third, never farther from zero |
| `Night.RollFajr` | script.js:207-210 | exactly one day is added to Fajr when, and only when, it is earlier than Maghrib; a Fajr less than a day before Maghrib is then no earlier than Maghrib; an invalid Fajr stays invalid |
| `Night.BuildWindow` | script.js:204-218 | Maghrib is kept, Fajr is rolled; with both less than a day apart the night lasts 0 up to (not including) one day; a non-negative night gives Maghrib ≤ last-third start ≤ Fajr; the start is within 1 ms of Maghrib + 2/3 of the night and equals Maghrib + ⌊2·night/3⌋ on the non-negative time line |
| `Night.Classify` | script.js:225-255 | each countdown is positive and lands on the start or on Fajr; on an ordered window exactly one state holds: before for now < start, during for start ≤ now < Fajr, after for now ≥ Fajr |
| `Night.Countdown` | script.js:225-237 | a countdown exists exactly outside the last branch, and shows hours ≥ 0 and minutes 0..59 within a minute below the positive duration |
| `Night.CalculateFrom` | script.js:207-255 | the window keeps Maghrib; it is valid exactly when both Dates are; an invalid Fajr ends in the last branch; an invalid Maghrib never gives the first branch, and with a valid Fajr gives the last-third branch counting down to Fajr before it and the last branch from it on |
| `Night.CalculateLastThird` | script.js:204-255 | the same for the prayer-time text: an unreadable Fajr ends in the last branch, and an unreadable Maghrib never gives the first branch |
| `Night.CalculateLastThirdInvalidMaghrib` | script.js:204-255 | with unreadable Maghrib text and readable Fajr text, the page is in the last third counting down to today's Fajr before it, and takes the last branch from it on |
| `Night.AnchoredWindowBounds` | script.js:204-218 | for in-range times anchored to one reading, the window is ordered, the night lasts less than a day, and the start is Maghrib + ⌊2·night/3⌋ when the time line is non-negative |
| `Night.CalculateWindowBounds` | script.js:204-218 | the same for readable in-range prayer-time text |
| `Night.AsWrittenIgnoresNightInProgress` | script.js:204-255 | when Fajr precedes Maghrib on the clock's day, the last branch is never taken, and before today's Fajr the state is always "before the last third" |
| `Night.AsWrittenIgnoresNightInProgressText` | script.js:204-255 | the same for prayer-time text |
| `Night.CorrectedFrom` | script.js:204-210 | validity and NaN behaviour as in the code; the window differs from the code's only before today's Maghrib when Fajr precedes Maghrib |
| `Night.CalculateLastThirdCorrected` | script.js:204-255 | valid exactly when both texts parse; an unreadable Fajr ends in the last branch |
| `Night.CorrectedWindowIsCurrentNight` | script.js:204-255 | for in-range times with Fajr before Maghrib, the corrected window starts at today's Maghrib or at that instant a day earlier, whichever is the latest at or before now, and ends at today's or tomorrow's Fajr, after the start and less than a day later; the last branch holds exactly from today's Fajr to today's Maghrib |
| `Night.CorrectedWindowIsCurrentNightText` | script.js:204-255 | the same for prayer-time text |
| `Night.ExampleTimesParse` | script.js:271-284 | `"18:30"` and `"05:00"` anchor to 18:30 and 05:00 on the clock's day |
| `Night.ExampleTextAnchors` | script.js:204-205 | read on the example day, the example text gives the example Dates |
| `Night.ExampleEveningFrom` | script.js:204-234 | Maghrib 18:30, Fajr 05:00, now 23:00: Fajr rolls to the next day, the last third starts at 01:30, and 2 h 30 min remain before it, in both calculations |
| `Night.ExampleEvening` | script.js:200-234 | the same from the prayer-time text |
| `Night.ExampleAfterMidnightFrom` | script.js:204-245 | at 02:00 the code counts 23 h 30 min down to the next night; the corrected calculation is in the last third with 3 h left |
| `Night.ExampleAfterMidnight` | script.js:200-245 | the same from the prayer-time text |
| `Night.ExampleMorningFrom` | script.js:204-255 | at 06:00 the code counts 19 h 30 min down; the corrected calculation takes the last branch |
| `Night.ExampleMorning` | script.js:200-255 | the same from the prayer-time text |

## Left out

- Rendering: the `innerHTML` templates, the Arabic text around the numbers, and `formatTime` / `toLocaleTimeString` (script.js:166-197, 228-267, 287-293, 306-313) are display only; the model yields the window, the state and the (hours, minutes) pair.
- Geolocation, the reverse-geocoding and prayer-time `fetch` calls, `localStorage`, and the error display (script.js:6-163): browser and network I/O.
- The clock: the parser, called at lines 204 and 205, reads `new Date()` at lines 275 and 278, and line 221 reads it once more as `now`; the model takes one reading `now` for all of them. The real reads are a few milliseconds apart and could straddle midnight.
- The timezone offset and daylight saving time: instants are local wall-clock milliseconds and `setDate(getDate() + 1)` adds exactly 86,400,000 ms.
- The Date range limit of ±8.64e15 ms, beyond which a Date becomes invalid, and the precision loss of `parseInt` on numbers with more than 15 or so digits.
- The floating-point evaluation of `maghrib + nightDuration * 2 / 3`: the model computes the exact value and truncates it toward zero as `new Date` does; the rounding of the double arithmetic before the truncation is not modelled.
- A missing `Maghrib` or `Fajr` entry (a `TypeError` on `.replace`, caught by the caller's `.catch`): the model always receives text.
- `parseInt("-0")` is negative zero in JavaScript; the model reads it as 0, which every Date setter treats the same.
- Night.CalculateWindowBounds: the ordering and the one-day bound are stated for in-range hours and minutes only; out-of-range fields carry into other days (which the model computes) and the night can then be negative or longer than a day.
- Night.AnchoredWindowBounds: same restriction to in-range hours and minutes.

## Findings

| source | as written | input that shows it | evidently intended | confidence | as-written member | corrected member |
|---|---|---|---|---|---|---|
| script.js:204-210 | both prayer times are anchored to the day of the clock reading, and Fajr is moved to the next day whenever it precedes Maghrib, so after midnight the page looks at the coming night instead of the night in progress, and the "Fajr has passed" branch can never be reached on an ordinary night | Maghrib `"18:30"`, Fajr `"05:00"`, now 02:00: the window is 18:30 today to 05:00 tomorrow and the page shows 23 h 30 min until the last third, although 02:00 lies in the last third (01:30–05:00) of the night that began yesterday; at 06:00 it shows 19 h 30 min instead of "Fajr has passed" | the window is the night that began at the most recent Maghrib; since the page only has today's timings, the corrected model takes the previous Maghrib to be today's Maghrib minus 86,400,000 ms (the real one differs by a minute or so): at 02:00 the page is in the last third with 3 h left, at 06:00 it takes the "Fajr has passed" branch, at 23:00 it counts down 2 h 30 min | medium, not executed | `Night.AsWrittenIgnoresNightInProgress` | `Night.CorrectedWindowIsCurrentNight` |

`Night.CalculateLastThird` models the code as written; `Night.CalculateLastThirdCorrected`
uses the same window builder, classifier and formatter with the corrected
anchoring.

=== FILE: durations.dfy ===
/** `formatTimeDifference`: a duration in milliseconds shown as whole hours
    and the whole minutes left over; seconds are dropped. */
module Durations {
  import opened Moments

  datatype HoursMinutes = HoursMinutes(hours: int, minutes: int) {
    /** The milliseconds the pair stands for. */
    function Total(): int {
      hours * MsPerHour + minutes * MsPerMinute
    }
  }

  /** JavaScript's `%`: the remainder takes the sign of the dividend. */
  function JsRem(a: int, b: int): (r: int)
    requires b > 0
    ensures a >= 0 ==> 0 <= r < b
    ensures a < 0 ==> -b < r <= 0
    ensures (a - r) % b == 0
  {
    if a >= 0 then
      var q := a / b;
      assert a - a % b == q * b + 0;
      DivModOf(q, 0, b);
      a % b
    else
      var q := -((-a) / b);
      assert a + (-a) % b == q * b + 0;
      DivModOf(q, 0, b);
      -((-a) % b)
  }

  /** `Math.floor(ms / hour)` and `Math.floor((ms % hour) / minute)`. For a
      non-negative duration the pair is the largest whole number of minutes
      not above `ms`, split into hours and minutes below 60. */
  function FormatTimeDifference(ms: int): (r: HoursMinutes)
    ensures ms >= 0 ==> r.hours >= 0 && 0 <= r.minutes < 60
    ensures ms >= 0 ==> r.Total() <= ms < r.Total() + MsPerMinute
    ensures ms < 0 ==> r.hours < 0 && -60 <= r.minutes <= 0
  {
    HoursMinutes(ms / MsPerHour, JsRem(ms, MsPerHour) / MsPerMinute)
  }

  /** The pair is determined by the duration: any hours and minutes below 60
      whose total lies within a minute below `ms` are the ones produced. */
  lemma FormatTimeDifferenceUnique(ms: int, hours: int, minutes: int)
    requires hours >= 0 && 0 <= minutes < 60
    requires HoursMinutes(hours, minutes).Total() <= ms < HoursMinutes(hours, minutes).Total() + MsPerMinute
    ensures FormatTimeDifference(ms) == HoursMinutes(hours, minutes)
  {
    var seconds := ms - HoursMinutes(hours, minutes).Total();
    DivModOf(hours, minutes * MsPerMinute + seconds, MsPerHour);
    DivModOf(minutes, seconds, MsPerMinute);
  }

  /** An hour and a half is (1, 30); 59 seconds truncate to (0, 0), and one
      millisecond short of two hours is (1, 59). */
  lemma FormatTimeDifferenceExamples()
    ensures FormatTimeDifference(5_400_000) == HoursMinutes(1, 30)
    ensures FormatTimeDifference(59_000) == HoursMinutes(0, 0)
    ensures FormatTimeDifference(7_199_999) == HoursMinutes(1, 59)
  {
    FormatTimeDifferenceUnique(5_400_000, 1, 30);
    FormatTimeDifferenceUnique(59_000, 0, 0);
    FormatTimeDifferenceUnique(7_199_999, 1, 59);
  }
}

=== FILE: moments.dfy ===
/** Instants on the local wall-clock time line, in whole milliseconds, and the
    anchoring of a parsed time of day to the day of a clock reading
    (`new Date()` followed by `setHours`, `setMinutes` and `setSeconds(0)`). */
module Moments {
  import opened TimeText

  const MsPerSecond: int := 1000
  const MsPerMinute: int := 60 * MsPerSecond
  const MsPerHour: int := 60 * MsPerMinute
  const MsPerDay: int := 24 * MsPerHour

  /** A Date's time value: a whole number of milliseconds, or NaN for an
      invalid Date. */
  datatype Moment = At(ms: int) | InvalidDate

  /** The `<` of two Dates: false as soon as either of them is NaN. */
  predicate Earlier(a: Moment, b: Moment): (r: bool)
    ensures a == InvalidDate || b == InvalidDate ==> !r
    ensures r ==> a != b
  {
    a.At? && b.At? && a.ms < b.ms
  }

  /** `<` is a strict order on valid Dates, total among them; an invalid Date
      is comparable to nothing, itself included. */
  lemma EarlierOrder(a: Moment, b: Moment, c: Moment)
    ensures !Earlier(a, a)
    ensures Earlier(a, b) ==> !Earlier(b, a)
    ensures Earlier(a, b) && Earlier(b, c) ==> Earlier(a, c)
    ensures a.At? && b.At? ==> Earlier(a, b) || a == b || Earlier(b, a)
  {
  }

  // The field accessors of a time value (floor division and a non-negative
  // remainder, as Dafny's `/` and `%` compute for a positive divisor).

  function DayOf(t: int): int {
    t / MsPerDay
  }

  function HourOf(t: int): int {
    (t / MsPerHour) % 24
  }

  function MinuteOf(t: int): int {
    (t / MsPerMinute) % 60
  }

  function SecondOf(t: int): int {
    (t / MsPerSecond) % 60
  }

  function MillisecondOf(t: int): int {
    t % MsPerSecond
  }

  /** `setHours(h)`, `setMinutes(m)`, `setSeconds(0)` applied to the Date read
      from the clock. Each setter keeps the finer fields, so the result is the
      clock's local midnight plus the hours and minutes, with the clock's
      millisecond field left in place. A field out of its range carries into
      the neighbouring hours or days, as Date arithmetic does. */
  function Anchor(t: TimeOfDay, clock: int): (r: int)
    ensures t.InRange() ==> DayOf(r) == DayOf(clock)
  {
    DayOf(clock) * MsPerDay + t.hours * MsPerHour + t.minutes * MsPerMinute + MillisecondOf(clock)
  }

  /** `convertPrayerTimeToDate`: parse the text and anchor it to the clock's
      day; text whose hours or minutes hold no digits gives an invalid Date. */
  function PrayerTimeToMoment(text: string, clock: int): (r: Moment)
    ensures r.At? <==> ParseTime(text).Some?
    ensures r.At? && ParseTime(text).value.InRange() ==> DayOf(r.ms) == DayOf(clock)
  {
    match ParseTime(text)
    case Some(t) => At(Anchor(t, clock))
    case None => InvalidDate
  }

  /** Splitting a time value into a multiple of the divisor and a remainder. */
  lemma DivModOf(q: int, r: int, d: int)
    requires d > 0 && 0 <= r < d
    ensures (q * d + r) / d == q && (q * d + r) % d == r
  {
    var q', r' := (q * d + r) / d, (q * d + r) % d;
    assert (q - q') * d == r' - r;
    if q' < q {
      MultipleAtLeast(q - q', d);
    } else if q < q' {
      MultipleAtLeast(q' - q, d);
    }
  }

  lemma MultipleAtLeast(k: int, d: int)
    requires k >= 1 && d > 0
    ensures k * d >= d
  {
  }

  /** An anchored in-range time reads back, through the Date field accessors,
      as the parsed hour and minute, zero seconds, and the clock's day and
      millisecond field. */
  lemma AnchorFields(t: TimeOfDay, clock: int)
    requires t.InRange()
    ensures DayOf(Anchor(t, clock)) == DayOf(clock)
    ensures HourOf(Anchor(t, clock)) == t.hours
    ensures MinuteOf(Anchor(t, clock)) == t.minutes
    ensures SecondOf(Anchor(t, clock)) == 0
    ensures MillisecondOf(Anchor(t, clock)) == MillisecondOf(clock)
  {
    var day := DayOf(clock);
    var ms := MillisecondOf(clock);
    var a := Anchor(t, clock);
    var minutes := day * 1440 + t.hours * 60 + t.minutes;
    assert a == minutes * MsPerMinute + ms;
    DivModOf(minutes, ms, MsPerMinute);
    DivModOf(day * 24 + t.hours, t.minutes, 60);
    DivModOf(day, t.hours, 24);
    assert a == (day * 24 + t.hours) * MsPerHour + (t.minutes * MsPerMinute + ms);
    DivModOf(day * 24 + t.hours, t.minutes * MsPerMinute + ms, MsPerHour);
    assert a == (minutes * 60) * MsPerSecond + ms;
    DivModOf(minutes * 60, ms, MsPerSecond);
    DivModOf(minutes, 0, 60);
  }

  /** Two in-range times anchored to the same clock reading lie less than a
      day apart, and their distance is the distance of their wall-clock times. */
  lemma AnchorDistance(a: TimeOfDay, b: TimeOfDay, clock: int)
    requires a.InRange() && b.InRange()
    ensures Anchor(b, clock) - Anchor(a, clock)
      == (b.hours - a.hours) * MsPerHour + (b.minutes - a.minutes) * MsPerMinute
    ensures -MsPerDay < Anchor(b, clock) - Anchor(a, clock) < MsPerDay
  {
  }
}

=== FILE: night.dfy ===
/** The pure part of `calculateLastThirdOfNight`: the night window from
    Maghrib to the following Fajr, the start of its last third, and the
    classification of the current instant against that window. */
module Night {
  import opened TimeText
  import opened Moments
  import opened Durations

  /** Maghrib, the (possibly rolled-over) Fajr, and the start of the last third. */
  datatype NightWindow = NightWindow(maghrib: Moment, fajr: Moment, lastThirdStart: Moment) {
    predicate Valid() {
      maghrib.At? && fajr.At? && lastThirdStart.At?
    }

    /** Maghrib, then the start of the last third, then Fajr. */
    predicate Ordered() {
      Valid() && maghrib.ms <= lastThirdStart.ms <= fajr.ms
    }
  }

  /** The three branches of the page, with the countdown each one shows. */
  datatype NightState =
    | BeforeLastThird(untilStart: int)
    | DuringLastThird(untilFajr: int)
    | AfterFajr

  datatype LastThird = LastThird(window: NightWindow, state: NightState)

  /** `new Date(x)` with x = n / 3: a fractional time value is truncated
      toward zero. */
  function TruncThird(n: int): (r: int)
    ensures n >= 0 ==> 0 <= 3 * r <= n < 3 * r + 3
    ensures n < 0 ==> 3 * r - 3 < n <= 3 * r <= 0
  {
    if n >= 0 then n / 3 else -((-n) / 3)
  }

  /** A Fajr earlier than Maghrib belongs to the next day: `setDate(getDate() + 1)`.
      Exactly one day is added when, and only when, Fajr is earlier; a Fajr
      less than a day before Maghrib then lands after it. */
  function RollFajr(maghrib: Moment, fajr: Moment): (r: Moment)
    ensures r.At? <==> fajr.At?
    ensures fajr.At? ==> (r.ms == fajr.ms + MsPerDay <==> Earlier(fajr, maghrib))
    ensures fajr.At? ==> (r.ms == fajr.ms <==> !Earlier(fajr, maghrib))
    ensures maghrib.At? && fajr.At? && maghrib.ms - MsPerDay <= fajr.ms ==> maghrib.ms <= r.ms
  {
    if Earlier(fajr, maghrib) then At(fajr.ms + MsPerDay) else fajr
  }

  /** Maghrib as given, Fajr rolled over midnight when it is earlier, and the
      last third starting two thirds of the night after Maghrib. */
  function BuildWindow(maghrib: Moment, rawFajr: Moment): (w: NightWindow)
    ensures w.maghrib == maghrib
    ensures w.fajr == RollFajr(maghrib, rawFajr)
    ensures w.Valid() <==> maghrib.At? && rawFajr.At?
    // Both ends valid and no more than a day apart: Fajr never precedes
    // Maghrib after the rollover, and the night is shorter than a day.
    ensures maghrib.At? && rawFajr.At? && maghrib.ms - MsPerDay <= rawFajr.ms < maghrib.ms + MsPerDay
      ==> 0 <= w.fajr.ms - maghrib.ms < MsPerDay
    ensures w.Valid() && maghrib.ms <= w.fajr.ms ==> w.Ordered()
    // The start is within a millisecond of Maghrib plus two thirds of the
    // night, and on the non-negative time line it is the floor of that value.
    ensures w.Valid() ==>
      -3 < 3 * w.lastThirdStart.ms - (3 * maghrib.ms + 2 * (w.fajr.ms - maghrib.ms)) < 3
    ensures w.Valid() && 0 <= 3 * maghrib.ms + 2 * (w.fajr.ms - maghrib.ms) ==>
      w.lastThirdStart.ms == maghrib.ms + (2 * (w.fajr.ms - maghrib.ms)) / 3
  {
    var fajr := RollFajr(maghrib, rawFajr);
    if maghrib.At? && fajr.At? then
      var nightDuration := fajr.ms - maghrib.ms;
      NightWindow(maghrib, fajr, At(TruncThird(3 * maghrib.ms + 2 * nightDuration)))
    else
      NightWindow(maghrib, fajr, InvalidDate)
  }

  /** The `if now < lastThirdStart / else if now < fajr / else` chain. Each
      countdown is positive, and on an ordered window the three states are
      the intervals before the start, from the start up to Fajr, and from Fajr on. */
  function Classify(w: NightWindow, now: int): (s: NightState)
    ensures s.BeforeLastThird? ==> s.untilStart > 0 && w.lastThirdStart == At(now + s.untilStart)
    ensures s.DuringLastThird? ==> s.untilFajr > 0 && w.fajr == At(now + s.untilFajr)
    ensures s.DuringLastThird? || s.AfterFajr? ==> !Earlier(At(now), w.lastThirdStart)
    ensures s.AfterFajr? ==> !Earlier(At(now), w.fajr)
    ensures w.Ordered() ==>
      && (s.BeforeLastThird? <==> now < w.lastThirdStart.ms)
      && (s.DuringLastThird? <==> w.lastThirdStart.ms <= now < w.fajr.ms)
      && (s.AfterFajr? <==> w.fajr.ms <= now)
  {
    if Earlier(At(now), w.lastThirdStart) then BeforeLastThird(w.lastThirdStart.ms - now)
    else if Earlier(At(now), w.fajr) then DuringLastThird(w.fajr.ms - now)
    else AfterFajr
  }

  /** The hours and minutes the page shows for the state, if any. */
  function Countdown(s: NightState): (r: Option<HoursMinutes>)
    ensures r.None? <==> s.AfterFajr?
    ensures s.BeforeLastThird? && s.untilStart > 0 ==>
      r.value.hours >= 0 && 0 <= r.value.minutes < 60
      && r.value.Total() <= s.untilStart < r.value.Total() + MsPerMinute
    ensures s.DuringLastThird? && s.untilFajr > 0 ==>
      r.value.hours >= 0 && 0 <= r.value.minutes < 60
      && r.value.Total() <= s.untilFajr < r.value.Total() + MsPerMinute
  {
    match s
    case BeforeLastThird(d) => Some(FormatTimeDifference(d))
    case DuringLastThird(d) => Some(FormatTimeDifference(d))
    case AfterFajr => None
  }

  /** The window and state for Maghrib and Fajr already turned into Dates. */
  function CalculateFrom(maghrib: Moment, fajr: Moment, now: int): (r: LastThird)
    ensures r.window.maghrib == maghrib
    ensures r.window.Valid() <==> maghrib.At? && fajr.At?
    // NaN compares false: an invalid Fajr always ends in the last branch,
    // and an invalid Maghrib never in the first; with a valid Fajr it is the
    // last third until Fajr and the last branch from Fajr on.
    ensures fajr.InvalidDate? ==> r.state == AfterFajr
    ensures maghrib.InvalidDate? ==> !r.state.BeforeLastThird?
    ensures maghrib.InvalidDate? && fajr.At? ==>
      r.state == if now < fajr.ms then DuringLastThird(fajr.ms - now) else AfterFajr
  {
    var w := BuildWindow(maghrib, fajr);
    LastThird(w, Classify(w, now))
  }

  /** `calculateLastThirdOfNight` with the clock read once, as `now`: both
      prayer times are anchored to the day of `now`. */
  function CalculateLastThird(maghribText: string, fajrText: string, now: int): (r: LastThird)
    ensures r.window.maghrib == PrayerTimeToMoment(maghribText, now)
    ensures r.window.Valid() <==> ParseTime(maghribText).Some? && ParseTime(fajrText).Some?
    ensures ParseTime(fajrText).None? ==> r.state == AfterFajr
    ensures ParseTime(maghribText).None? ==> !r.state.BeforeLastThird?
  {
    CalculateFrom(PrayerTimeToMoment(maghribText, now), PrayerTimeToMoment(fajrText, now), now)
  }

  /** With unreadable Maghrib text and readable Fajr text, the page is in the
      last third, counting down to today's Fajr, until that Fajr, and takes the
      last branch from then on. */
  lemma CalculateLastThirdInvalidMaghrib(maghribText: string, fajrText: string, now: int)
    requires ParseTime(maghribText).None? && ParseTime(fajrText).Some?
    ensures var fajr := Anchor(ParseTime(fajrText).value, now);
      CalculateLastThird(maghribText, fajrText, now).state
        == if now < fajr then DuringLastThird(fajr - now) else AfterFajr
  {
    var fajr := PrayerTimeToMoment(fajrText, now);
    assert fajr == At(Anchor(ParseTime(fajrText).value, now));
    assert CalculateLastThird(maghribText, fajrText, now)
        == CalculateFrom(PrayerTimeToMoment(maghribText, now), fajr, now);
  }

  /** Two in-range times anchored to the day of `now`. */
  lemma AnchoredWindowBounds(m: TimeOfDay, f: TimeOfDay, now: int)
    requires m.InRange() && f.InRange()
    ensures var w := BuildWindow(At(Anchor(m, now)), At(Anchor(f, now)));
      && w.Ordered()
      && 0 <= w.fajr.ms - w.maghrib.ms < MsPerDay
      && (now >= 0 ==> w.lastThirdStart.ms == w.maghrib.ms + (2 * (w.fajr.ms - w.maghrib.ms)) / 3)
  {
    AnchorDistance(m, f, now);
    if now >= 0 {
      assert DayOf(now) >= 0;
    }
  }

  /** For readable in-range prayer times the window is ordered, the night
      lasts less than a day, and on the non-negative time line the start of
      the last third is Maghrib plus the floor of two thirds of the night. */
  lemma CalculateWindowBounds(maghribText: string, fajrText: string, now: int)
    requires ParseTime(maghribText).Some? && ParseTime(maghribText).value.InRange()
    requires ParseTime(fajrText).Some? && ParseTime(fajrText).value.InRange()
    ensures CalculateLastThird(maghribText, fajrText, now).window.Ordered()
    ensures 0 <= CalculateLastThird(maghribText, fajrText, now).window.fajr.ms
               - CalculateLastThird(maghribText, fajrText, now).window.maghrib.ms < MsPerDay
    ensures now >= 0 ==>
      var w := CalculateLastThird(maghribText, fajrText, now).window;
      w.lastThirdStart.ms == w.maghrib.ms + (2 * (w.fajr.ms - w.maghrib.ms)) / 3
  {
    AnchoredWindowBounds(ParseTime(maghribText).value, ParseTime(fajrText).value, now);
  }

  // ---------------------------------------------------------------------------
  // Anchoring to the clock's day, as written, and the evidently intended
  // anchoring to the most recent Maghrib.
  // ---------------------------------------------------------------------------

  /** The start of the clock's day is at or before `now`, less than a day before. */
  lemma DayStartBounds(now: int)
    ensures DayOf(now) * MsPerDay <= now < DayOf(now) * MsPerDay + MsPerDay
  {
  }

  /** As written, for in-range times with Fajr before Maghrib on the clock's
      day (every ordinary night), the window always ends after today's Fajr:
      the last branch is never taken, and before today's Fajr, even inside
      the last third of the night in progress, the page counts down to the
      next night. */
  lemma AsWrittenIgnoresNightInProgress(m: TimeOfDay, f: TimeOfDay, now: int)
    requires m.InRange() && f.InRange()
    requires Anchor(f, now) < Anchor(m, now)
    ensures CalculateFrom(At(Anchor(m, now)), At(Anchor(f, now)), now).state != AfterFajr
    ensures now < Anchor(f, now) ==>
      CalculateFrom(At(Anchor(m, now)), At(Anchor(f, now)), now).state.BeforeLastThird?
  {
    AnchoredWindowBounds(m, f, now);
    DayStartBounds(now);
    assert Anchor(f, now) >= DayOf(now) * MsPerDay;
  }

  /** The same for prayer-time text, as `calculateLastThirdOfNight` receives it. */
  lemma AsWrittenIgnoresNightInProgressText(maghribText: string, fajrText: string, now: int)
    requires ParseTime(maghribText).Some? && ParseTime(maghribText).value.InRange()
    requires ParseTime(fajrText).Some? && ParseTime(fajrText).value.InRange()
    requires Earlier(PrayerTimeToMoment(fajrText, now), PrayerTimeToMoment(maghribText, now))
    ensures CalculateLastThird(maghribText, fajrText, now).state != AfterFajr
    ensures Earlier(At(now), PrayerTimeToMoment(fajrText, now)) ==>
      CalculateLastThird(maghribText, fajrText, now).state.BeforeLastThird?
  {
    AsWrittenIgnoresNightInProgress(ParseTime(maghribText).value, ParseTime(fajrText).value, now);
  }

  /** The evidently intended window: the night that began at the most recent
      Maghrib, so that before today's Maghrib it is the night that began the
      day before. */
  function CorrectedFrom(maghrib: Moment, fajr: Moment, now: int): (r: LastThird)
    ensures r.window.Valid() <==> maghrib.At? && fajr.At?
    ensures fajr.InvalidDate? ==> r.state == AfterFajr
    ensures maghrib.InvalidDate? ==> !r.state.BeforeLastThird?
    ensures !(Earlier(At(now), maghrib) && Earlier(fajr, maghrib)) ==> r == CalculateFrom(maghrib, fajr, now)
  {
    var evening :=
      if Earlier(At(now), maghrib) && Earlier(fajr, maghrib) then At(maghrib.ms - MsPerDay)
      else maghrib;
    CalculateFrom(evening, fajr, now)
  }

  /** The corrected `calculateLastThirdOfNight`. */
  function CalculateLastThirdCorrected(maghribText: string, fajrText: string, now: int): (r: LastThird)
    ensures r.window.Valid() <==> ParseTime(maghribText).Some? && ParseTime(fajrText).Some?
    ensures ParseTime(fajrText).None? ==> r.state == AfterFajr
  {
    CorrectedFrom(PrayerTimeToMoment(maghribText, now), PrayerTimeToMoment(fajrText, now), now)
  }

  /** The corrected window begins at the latest Maghrib at or before `now`
      (today's, or yesterday's taken as a day earlier) and ends at the Fajr
      that follows it (today's, or tomorrow's); the last branch is taken exactly
      between today's Fajr and today's Maghrib. */
  lemma CorrectedWindowIsCurrentNight(m: TimeOfDay, f: TimeOfDay, now: int)
    requires m.InRange() && f.InRange()
    requires Anchor(f, now) < Anchor(m, now)
    ensures var w := CorrectedFrom(At(Anchor(m, now)), At(Anchor(f, now)), now).window;
      && (w.maghrib.ms == Anchor(m, now) || w.maghrib.ms == Anchor(m, now) - MsPerDay)
      && (w.fajr.ms == Anchor(f, now) || w.fajr.ms == Anchor(f, now) + MsPerDay)
      && w.Ordered()
      && w.maghrib.ms <= now < w.maghrib.ms + MsPerDay
      && 0 < w.fajr.ms - w.maghrib.ms < MsPerDay
    ensures CorrectedFrom(At(Anchor(m, now)), At(Anchor(f, now)), now).state.AfterFajr?
      <==> Anchor(f, now) <= now < Anchor(m, now)
  {
    AnchorDistance(m, f, now);
    DayStartBounds(now);
    assert Anchor(f, now) >= DayOf(now) * MsPerDay;
    assert Anchor(m, now) < DayOf(now) * MsPerDay + MsPerDay;
  }

  /** The same for prayer-time text. */
  lemma CorrectedWindowIsCurrentNightText(maghribText: string, fajrText: string, now: int)
    requires ParseTime(maghribText).Some? && ParseTime(maghribText).value.InRange()
    requires ParseTime(fajrText).Some? && ParseTime(fajrText).value.InRange()
    requires Earlier(PrayerTimeToMoment(fajrText, now), PrayerTimeToMoment(maghribText, now))
    ensures var w := CalculateLastThirdCorrected(maghribText, fajrText, now).window;
      && (w.maghrib.ms == PrayerTimeToMoment(maghribText, now).ms
          || w.maghrib.ms == PrayerTimeToMoment(maghribText, now).ms - MsPerDay)
      && (w.fajr.ms == PrayerTimeToMoment(fajrText, now).ms
          || w.fajr.ms == PrayerTimeToMoment(fajrText, now).ms + MsPerDay)
      && w.Ordered()
      && w.maghrib.ms <= now < w.maghrib.ms + MsPerDay
      && 0 < w.fajr.ms - w.maghrib.ms < MsPerDay
    ensures CalculateLastThirdCorrected(maghribText, fajrText, now).state.AfterFajr?
      <==> PrayerTimeToMoment(fajrText, now).ms <= now < PrayerTimeToMoment(maghribText, now).ms
  {
    CorrectedWindowIsCurrentNight(ParseTime(maghribText).value, ParseTime(fajrText).value, now);
  }

  // ---------------------------------------------------------------------------
  // A worked night: Maghrib 18:30, Fajr 05:00, on day 20000 of the time line.
  // ---------------------------------------------------------------------------

  const ExampleDay: int := 20000 * MsPerDay

  lemma ExampleTimesParse(now: int)
    requires now % MsPerSecond == 0
    ensures PrayerTimeToMoment("18:30", now) == At(DayOf(now) * MsPerDay + 18 * MsPerHour + 30 * MsPerMinute)
    ensures PrayerTimeToMoment("05:00", now) == At(DayOf(now) * MsPerDay + 5 * MsPerHour)
  {
    assert FormatClock(TimeOfDay(18, 30)) == "18:30";
    assert FormatClock(TimeOfDay(5, 0)) == "05:00";
    ParseFormatRoundTrip(TimeOfDay(18, 30));
    ParseFormatRoundTrip(TimeOfDay(5, 0));
  }

  const ExampleMaghrib: Moment := At(ExampleDay + 18 * MsPerHour + 30 * MsPerMinute)
  const ExampleFajr: Moment := At(ExampleDay + 5 * MsPerHour)

  /** The text of the worked night, read at a clock time on the example day. */
  lemma ExampleTextAnchors(now: int)
    requires ExampleDay <= now < ExampleDay + MsPerDay && now % MsPerSecond == 0
    ensures CalculateLastThird("18:30", "05:00", now) == CalculateFrom(ExampleMaghrib, ExampleFajr, now)
    ensures CalculateLastThirdCorrected("18:30", "05:00", now) == CorrectedFrom(ExampleMaghrib, ExampleFajr, now)
  {
    DivModOf(20000, now - ExampleDay, MsPerDay);
    ExampleTimesParse(now);
  }

  /** At 23:00 both calculations see tonight's night: 10 h 30 min long, its
      last third starting at 01:30, two and a half hours away. */
  lemma ExampleEveningFrom()
    ensures CalculateFrom(ExampleMaghrib, ExampleFajr, ExampleDay + 23 * MsPerHour)
      == LastThird(
           NightWindow(ExampleMaghrib,
                       At(ExampleDay + MsPerDay + 5 * MsPerHour),
                       At(ExampleDay + MsPerDay + MsPerHour + 30 * MsPerMinute)),
           BeforeLastThird(2 * MsPerHour + 30 * MsPerMinute))
    ensures CorrectedFrom(ExampleMaghrib, ExampleFajr, ExampleDay + 23 * MsPerHour)
         == CalculateFrom(ExampleMaghrib, ExampleFajr, ExampleDay + 23 * MsPerHour)
  {
    var w := BuildWindow(ExampleMaghrib, ExampleFajr);
    assert w.fajr == At(ExampleDay + MsPerDay + 5 * MsPerHour);
    assert w.lastThirdStart == At(ExampleDay + MsPerDay + MsPerHour + 30 * MsPerMinute);
  }

  lemma ExampleEvening()
    ensures CalculateLastThird("18:30", "05:00", ExampleDay + 23 * MsPerHour).state
         == BeforeLastThird(2 * MsPerHour + 30 * MsPerMinute)
    ensures CalculateLastThirdCorrected("18:30", "05:00", ExampleDay + 23 * MsPerHour).state
         == BeforeLastThird(2 * MsPerHour + 30 * MsPerMinute)
  {
    ExampleTextAnchors(ExampleDay + 23 * MsPerHour);
    ExampleEveningFrom();
  }

  /** At 02:00, inside the last third of the night that began at 18:30 the
      day before, the calculation as written counts 23 h 30 min down to the
      next night's last third; the corrected one reports the last third with
      three hours left. */
  lemma ExampleAfterMidnightFrom()
    ensures CalculateFrom(ExampleMaghrib, ExampleFajr, ExampleDay + 2 * MsPerHour).state
         == BeforeLastThird(23 * MsPerHour + 30 * MsPerMinute)
    ensures CorrectedFrom(ExampleMaghrib, ExampleFajr, ExampleDay + 2 * MsPerHour).state
         == DuringLastThird(3 * MsPerHour)
  {
    var w := BuildWindow(ExampleMaghrib, ExampleFajr);
    assert w.lastThirdStart == At(ExampleDay + MsPerDay + MsPerHour + 30 * MsPerMinute);
    var y := BuildWindow(At(ExampleMaghrib.ms - MsPerDay), ExampleFajr);
    assert y.fajr == ExampleFajr;
    assert y.lastThirdStart == At(ExampleDay + MsPerHour + 30 * MsPerMinute);
  }

  lemma ExampleAfterMidnight()
    ensures CalculateLastThird("18:30", "05:00", ExampleDay + 2 * MsPerHour).state
         == BeforeLastThird(23 * MsPerHour + 30 * MsPerMinute)
    ensures CalculateLastThirdCorrected("18:30", "05:00", ExampleDay + 2 * MsPerHour).state
         == DuringLastThird(3 * MsPerHour)
  {
    ExampleTextAnchors(ExampleDay + 2 * MsPerHour);
    ExampleAfterMidnightFrom();
  }

  /** At 06:00, after Fajr, the calculation as written still counts down
      (19 h 30 min); the corrected one takes the last branch. */
  lemma ExampleMorningFrom()
    ensures CalculateFrom(ExampleMaghrib, ExampleFajr, ExampleDay + 6 * MsPerHour).state
         == BeforeLastThird(19 * MsPerHour + 30 * MsPerMinute)
    ensures CorrectedFrom(ExampleMaghrib, ExampleFajr, ExampleDay + 6 * MsPerHour).state
         == AfterFajr
  {
    var w := BuildWindow(ExampleMaghrib, ExampleFajr);
    assert w.lastThirdStart == At(ExampleDay + MsPerDay + MsPerHour + 30 * MsPerMinute);
    var y := BuildWindow(At(ExampleMaghrib.ms - MsPerDay), ExampleFajr);
    assert y.fajr == ExampleFajr;
  }

  lemma ExampleMorning()
    ensures CalculateLastThird("18:30", "05:00", ExampleDay + 6 * MsPerHour).state
         == BeforeLastThird(19 * MsPerHour + 30 * MsPerMinute)
    ensures CalculateLastThirdCorrected("18:30", "05:00", ExampleDay + 6 * MsPerHour).state
         == AfterFajr
  {
    ExampleTextAnchors(ExampleDay + 6 * MsPerHour);
    ExampleMorningFrom();
  }
}

=== FILE: time_text.dfy ===
/** Text handling of the prayer-time strings the calculator receives: the
    removal of a trailing timezone annotation such as " (EET)", the split on
    ':' and the base-10 `parseInt` of each field. */
module TimeText {

  datatype Option<+T> = None | Some(value: T)

  /** A wall-clock time as parsed from text. The fields are whatever `parseInt`
      produced; nothing checks their range, so they may lie outside 0..23 and 0..59. */
  datatype TimeOfDay = TimeOfDay(hours: int, minutes: int) {
    predicate InRange() {
      0 <= hours < 24 && 0 <= minutes < 60
    }
  }

  // ---------------------------------------------------------------------------
  // The annotation strip: `s.replace(/ \(.+\)$/, "")`
  // ---------------------------------------------------------------------------

  /** The characters the regular-expression `.` refuses to match. */
  predicate IsLineTerminator(c: char) {
    c == '\n' || c == '\r' || c == '\U{2028}' || c == '\U{2029}'
  }

  /** The pattern ` \(.+\)$` matches `s` starting at index `i`: a space, an
      opening parenthesis, at least one character that is not a line
      terminator, and a closing parenthesis that is the last character. */
  predicate AnnotationAt(s: string, i: nat) {
    && i + 4 <= |s|
    && s[i] == ' '
    && s[i + 1] == '('
    && s[|s| - 1] == ')'
    && forall k :: i + 2 <= k < |s| - 1 ==> !IsLineTerminator(s[k])
  }

  /** The leftmost index at or after `from` where the pattern matches. */
  function FirstAnnotation(s: string, from: nat): (r: Option<nat>)
    ensures r.Some? ==> from <= r.value && AnnotationAt(s, r.value)
    ensures forall j: nat :: from <= j && (r.None? || j < r.value) ==> !AnnotationAt(s, j)
    decreases |s| - from
  {
    if |s| < from + 4 then None
    else if AnnotationAt(s, from) then Some(from)
    else FirstAnnotation(s, from + 1)
  }

  /** A non-global `replace` removes the leftmost match, which runs to the end
      of the string; without a match the string is unchanged. */
  function StripAnnotation(s: string): (r: string)
    ensures r <= s
    ensures forall j: nat :: j < |r| ==> !AnnotationAt(s, j)
    ensures r == s || AnnotationAt(s, |r|)
    ensures r == s ==> forall j: nat :: !AnnotationAt(s, j)
  {
    match FirstAnnotation(s, 0)
    case Some(i) => s[..i]
    case None => s
  }

  // ---------------------------------------------------------------------------
  // The split: `const [hours, minutes] = s.split(":")`
  // ---------------------------------------------------------------------------

  /** The text before the first ':' of `s` (all of `s` when it has none). */
  function UpToColon(s: string): (r: string)
    ensures r <= s
    ensures ':' !in r
    ensures |r| < |s| ==> s[|r|] == ':'
  {
    if s == [] || s[0] == ':' then [] else [s[0]] + UpToColon(s[1..])
  }

  /** The first two pieces of `s.split(":")`. The second is absent (JavaScript's
      `undefined`) when `s` has no colon; pieces after a second colon are dropped. */
  function SplitFields(s: string): (r: (string, Option<string>))
    ensures r.0 <= s && ':' !in r.0
    ensures r.1.None? <==> ':' !in s
    ensures r.1.None? ==> r.0 == s
    ensures r.1.Some? ==>
      && r.0 + [':'] + r.1.value <= s
      && ':' !in r.1.value
      && (|r.0| + 1 + |r.1.value| < |s| ==> s[|r.0| + 1 + |r.1.value|] == ':')
  {
    var head := UpToColon(s);
    if |head| == |s| then (head, None)
    else
      var tail := UpToColon(s[|head| + 1..]);
      assert s[..|head| + 1 + |tail|] == head + [':'] + tail;
      (head, Some(tail))
  }

  // ---------------------------------------------------------------------------
  // `parseInt(text, 10)`
  // ---------------------------------------------------------------------------

  /** The white space and line terminators `parseInt` skips before the number. */
  predicate IsWhiteSpace(c: char) {
    || c == '\t' || c == '\n' || c == '\U{000B}' || c == '\U{000C}' || c == '\r' || c == ' '
    || c == '\U{00A0}' || c == '\U{1680}' || ('\U{2000}' <= c <= '\U{200A}')
    || c == '\U{2028}' || c == '\U{2029}' || c == '\U{202F}' || c == '\U{205F}'
    || c == '\U{3000}' || c == '\U{FEFF}'
  }

  predicate IsDigit(c: char) {
    '0' as int <= c as int <= '9' as int
  }

  predicate AllDigits(s: string) {
    forall k :: 0 <= k < |s| ==> IsDigit(s[k])
  }

  function DigitValue(c: char): (d: nat)
    requires IsDigit(c)
    ensures d < 10
  {
    c as int - '0' as int
  }

  function DigitChar(d: nat): (c: char)
    requires d < 10
    ensures IsDigit(c) && DigitValue(c) == d
  {
    ('0' as int + d) as char
  }

  /** `s` without its leading white space. */
  function TrimStart(s: string): (r: string)
    ensures |r| <= |s| && r == s[|s| - |r|..]
    ensures forall k :: 0 <= k < |s| - |r| ==> IsWhiteSpace(s[k])
    ensures r == [] || !IsWhiteSpace(r[0])
  {
    if s != [] && IsWhiteSpace(s[0]) then TrimStart(s[1..]) else s
  }

  /** The longest prefix of `s` made of decimal digits. */
  function LeadingDigits(s: string): (r: string)
    ensures r <= s
    ensures AllDigits(r)
    ensures |r| < |s| ==> !IsDigit(s[|r|])
  {
    if s != [] && IsDigit(s[0]) then [s[0]] + LeadingDigits(s[1..]) else []
  }

  /** The value of a string of decimal digits, most significant first. */
  function DecimalValue(ds: string): nat
    requires AllDigits(ds)
  {
    if ds == [] then 0 else 10 * DecimalValue(ds[..|ds| - 1]) + DigitValue(ds[|ds| - 1])
  }

  /** `parseInt(s, 10)`: skip white space, then read what follows. `None`
      stands for NaN (no digit at all). */
  function ParseInt(s: string): (r: Option<int>)
    ensures (forall k :: 0 <= k < |s| ==> !IsDigit(s[k])) ==> r.None?
    ensures r.Some? && r.value < 0 ==> '-' in s
  {
    var t := TrimStart(s);
    var r := ParseSigned(t);
    assert r.Some? ==> IsDigit(s[|s| - |t|]) || IsDigit(s[|s| - |t| + 1]);
    r
  }

  /** The number at the start of white-space-free text: an optional sign, then
      the digits. */
  function ParseSigned(t: string): (r: Option<int>)
    ensures r.Some? ==> |t| > 0 && (IsDigit(t[0]) || (|t| > 1 && IsDigit(t[1])))
    ensures r.Some? && r.value < 0 ==> t != [] && t[0] == '-'
  {
    if t != [] && t[0] == '-' then
      match ParseDigits(t[1..])
      case Some(magnitude) => Some(-(magnitude as int))
      case None => None
    else if t != [] && t[0] == '+' then
      match ParseDigits(t[1..])
      case Some(magnitude) => Some(magnitude as int)
      case None => None
    else
      match ParseDigits(t)
      case Some(magnitude) => Some(magnitude as int)
      case None => None
  }

  /** Exactly when `parseInt` finds a number after the white space: a digit
      first, or a sign followed at once by a digit. */
  lemma ParseSignedExact(t: string)
    ensures ParseSigned(t).Some? <==>
      t != [] && (IsDigit(t[0]) || ((t[0] == '-' || t[0] == '+') && |t| > 1 && IsDigit(t[1])))
  {
    if t != [] && (t[0] == '-' || t[0] == '+') {
      assert t[1..] != [] ==> t[1..][0] == t[1];
    }
  }

  /** The value of the longest run of digits at the start of `u`; trailing
      text after the digits is ignored. */
  function ParseDigits(u: string): (r: Option<nat>)
    ensures r.Some? <==> u != [] && IsDigit(u[0])
  {
    var digits := LeadingDigits(u);
    if digits == [] then None else Some(DecimalValue(digits))
  }

  // ---------------------------------------------------------------------------
  // The time-of-day parser
  // ---------------------------------------------------------------------------

  /** Strip the annotation, split on ':', `parseInt` both fields. `None` stands
      for the NaN either field produces when it holds no digits (or, for the
      minutes, when there is no colon and the field is `undefined`). */
  function ParseTime(s: string): (r: Option<TimeOfDay>)
    ensures ':' !in s ==> r.None?
    ensures (forall k :: 0 <= k < |s| ==> !IsDigit(s[k])) ==> r.None?
  {
    var fields := SplitFields(StripAnnotation(s));
    if fields.1.None? then None
    else
      match (ParseInt(fields.0), ParseInt(fields.1.value))
      case (Some(h), Some(m)) => Some(TimeOfDay(h, m))
      case _ => None
  }

  /** Two decimal digits, zero padded. */
  function TwoDigits(n: nat): (s: string)
    requires n < 100
    ensures |s| == 2 && AllDigits(s)
  {
    [DigitChar(n / 10), DigitChar(n % 10)]
  }

  /** The 24-hour `HH:MM` text the prayer-time service delivers. */
  function FormatClock(t: TimeOfDay): (s: string)
    requires t.InRange()
    ensures |s| == 5 && s[2] == ':'
  {
    TwoDigits(t.hours) + ":" + TwoDigits(t.minutes)
  }

  /** Well-formed `HH:MM` text with the hour in 00..23 and the minute in 00..59. */
  predicate IsClockText(s: string) {
    && |s| == 5
    && AllDigits(s[..2]) && s[2] == ':' && AllDigits(s[3..])
    && DecimalValue(s[..2]) < 24 && DecimalValue(s[3..]) < 60
  }

  // ---------------------------------------------------------------------------
  // Lemmas
  // ---------------------------------------------------------------------------

  /** Text without an opening parenthesis carries no annotation to strip. */
  lemma StripWithoutParenthesis(s: string)
    requires '(' !in s
    ensures StripAnnotation(s) == s
  {
  }

  /** Appending ` (tag)` to text without parentheses is undone by the strip. */
  lemma {:induction false} StripRemovesTag(s: string, tag: string)
    requires '(' !in s
    requires tag != [] && forall k :: 0 <= k < |tag| ==> !IsLineTerminator(tag[k])
    ensures StripAnnotation(s + " (" + tag + ")") == s
  {
    var full := s + " (" + tag + ")";
    assert AnnotationAt(full, |s|) by {
      forall k | |s| + 2 <= k < |full| - 1
        ensures !IsLineTerminator(full[k])
      {
        assert full[k] == tag[k - |s| - 2];
      }
    }
    var r := StripAnnotation(full);
    assert |r| == |s|;
    assert r == full[..|s|] == s;
  }

  /** A timezone annotation does not change the parsed time:
      "05:12 (EET)" and "05:12" give the same result. */
  lemma ParseIgnoresAnnotation(s: string, tag: string)
    requires '(' !in s
    requires tag != [] && forall k :: 0 <= k < |tag| ==> !IsLineTerminator(tag[k])
    ensures ParseTime(s + " (" + tag + ")") == ParseTime(s)
  {
    StripRemovesTag(s, tag);
    StripWithoutParenthesis(s);
  }

  lemma {:induction false} DecimalValueTwo(ds: string)
    requires |ds| == 2 && AllDigits(ds)
    ensures DecimalValue(ds) == 10 * DigitValue(ds[0]) + DigitValue(ds[1])
  {
    assert ds[..1][..0] == [];
    assert DecimalValue(ds[..1]) == DigitValue(ds[0]);
  }

  /** Digits followed by a non-digit are read as the digits' value. */
  lemma {:induction false} ParseIntOfDigits(ds: string, rest: string)
    requires ds != [] && AllDigits(ds)
    requires rest == [] || !IsDigit(rest[0])
    ensures ParseInt(ds + rest) == Some(DecimalValue(ds))
  {
    var s := ds + rest;
    assert !IsWhiteSpace(s[0]);
    assert TrimStart(s) == s;
    assert s[0] != '-' && s[0] != '+';
    ParseDigitsOf(ds, rest);
  }

  /** A digit run followed by a non-digit is read as its value. */
  lemma ParseDigitsOf(ds: string, rest: string)
    requires ds != [] && AllDigits(ds)
    requires rest == [] || !IsDigit(rest[0])
    ensures ParseDigits(ds + rest) == Some(DecimalValue(ds))
  {
    LeadingDigitsOf(ds, rest);
  }

  /** The digit run of digits followed by a non-digit is those digits. */
  lemma LeadingDigitsOf(ds: string, rest: string)
    requires AllDigits(ds)
    requires rest == [] || !IsDigit(rest[0])
    ensures LeadingDigits(ds + rest) == ds
  {
    var s := ds + rest;
    var d := LeadingDigits(s);
    assert |d| == |ds|;
    assert d == s[..|ds|] == ds;
  }

  /** Leading white space is skipped entirely, and nothing after it. */
  lemma {:induction false} TrimWhiteSpacePrefix(ws: string, t: string)
    requires forall k :: 0 <= k < |ws| ==> IsWhiteSpace(ws[k])
    requires t == [] || !IsWhiteSpace(t[0])
    ensures TrimStart(ws + t) == t
  {
    if ws != [] {
      assert (ws + t)[1..] == ws[1..] + t;
      TrimWhiteSpacePrefix(ws[1..], t);
    } else {
      assert ws + t == t;
    }
  }

  /** After leading white space, a sign applies to the digits that follow it. */
  lemma ParseIntSigned(ws: string, sign: char, ds: string, rest: string)
    requires forall k :: 0 <= k < |ws| ==> IsWhiteSpace(ws[k])
    requires sign == '-' || sign == '+'
    requires ds != [] && AllDigits(ds)
    requires rest == [] || !IsDigit(rest[0])
    ensures ParseInt(ws + [sign] + ds + rest)
         == Some(if sign == '-' then -(DecimalValue(ds) as int) else DecimalValue(ds))
  {
    var t := [sign] + (ds + rest);
    assert ws + [sign] + ds + rest == ws + t;
    SkipWhiteSpace(ws, t);
    ParseDigitsOf(ds, rest);
    SignApplies(sign, ds + rest, DecimalValue(ds));
  }

  /** `parseInt` reads past leading white space. */
  lemma SkipWhiteSpace(ws: string, t: string)
    requires forall k :: 0 <= k < |ws| ==> IsWhiteSpace(ws[k])
    requires t == [] || !IsWhiteSpace(t[0])
    ensures ParseInt(ws + t) == ParseSigned(t)
  {
    TrimWhiteSpacePrefix(ws, t);
  }

  /** A leading sign negates, or keeps, the value of the digits after it. */
  lemma SignApplies(sign: char, u: string, v: nat)
    requires sign == '-' || sign == '+'
    requires ParseDigits(u) == Some(v)
    ensures ParseSigned([sign] + u) == Some(if sign == '-' then -(v as int) else v)
  {
    assert ([sign] + u)[1..] == u;
  }

  /** `parseInt` reads back a zero-padded two-digit number. */
  lemma ParseIntTwoDigits(n: nat)
    requires n < 100
    ensures ParseInt(TwoDigits(n)) == Some(n)
  {
    var s := TwoDigits(n);
    assert DecimalValue(s) == n by {
      DecimalValueTwo(s);
    }
    assert ParseInt(s) == Some(DecimalValue(s)) by {
      ParseIntOfDigits(s, []);
      assert s + [] == s;
    }
  }

  /** Hours come from the text before the first ':', minutes from the text
      between it and the next ':' (or the end); anything later is ignored. */
  lemma {:induction false} ParseTimeFields(hoursText: string, minutesText: string, rest: string)
    requires ':' !in hoursText && ':' !in minutesText
    requires rest == [] || rest[0] == ':'
    requires '(' !in hoursText + ":" + minutesText + rest
    ensures ParseTime(hoursText + ":" + minutesText + rest) ==
      if ParseInt(hoursText).Some? && ParseInt(minutesText).Some?
      then Some(TimeOfDay(ParseInt(hoursText).value, ParseInt(minutesText).value))
      else None
  {
    var s := hoursText + ":" + minutesText + rest;
    StripWithoutParenthesis(s);
    var fields := SplitFields(s);
    assert s[|hoursText|] == ':';
    assert ':' in s;
    assert |fields.0| == |hoursText|;
    assert fields.0 == s[..|hoursText|] == hoursText;
    var m := fields.1.value;
    var at := |hoursText| + 1;
    assert s[at..at + |minutesText|] == minutesText;
    assert |m| == |minutesText|;
    assert m == s[at..at + |m|] == minutesText;
  }

  /** Parsing the `HH:MM` text of an in-range time gives that time back. */
  lemma ParseFormatRoundTrip(t: TimeOfDay)
    requires t.InRange()
    ensures ParseTime(FormatClock(t)) == Some(t)
  {
    var h := TwoDigits(t.hours);
    var m := TwoDigits(t.minutes);
    assert FormatClock(t) == h + ":" + m + [];
    ParseTimeFields(h, m, []);
    ParseIntTwoDigits(t.hours);
    ParseIntTwoDigits(t.minutes);
  }

  /** The round trip the other way: well-formed `HH:MM` text parses to an
      in-range time whose `HH:MM` text is the original string. */
  lemma FormatParseRoundTrip(s: string)
    requires IsClockText(s)
    ensures ParseTime(s).Some? && ParseTime(s).value.InRange()
    ensures FormatClock(ParseTime(s).value) == s
  {
    var t := TimeOfDay(DecimalValue(s[..2]), DecimalValue(s[3..]));
    DecimalValueTwo(s[..2]);
    DecimalValueTwo(s[3..]);
    assert FormatClock(t) == s;
    ParseFormatRoundTrip(t);
  }

  /** The combination the prayer-time service produces: `HH:MM (TZ)`. */
  lemma ParseAnnotatedClock(t: TimeOfDay, tag: string)
    requires t.InRange()
    requires tag != [] && forall k :: 0 <= k < |tag| ==> !IsLineTerminator(tag[k])
    ensures ParseTime(FormatClock(t) + " (" + tag + ")") == Some(t)
  {
    ParseIgnoresAnnotation(FormatClock(t), tag);
    ParseFormatRoundTrip(t);
  }
}
